=== FILE: README.md ===
# Helpers_2_0 dependency core in Dafny

This project models three parts of the Helpers_2_0 C# library and proves what they do:

- **`HotList3<T>`** (`hot_list.dfy`, module `HotList`). This is a list struct. Its first three elements live in the fields `Item0`, `Item1` and `Item2`. Later elements live in a heap list `Extra`, and `Count` is the length. The model is a class with those fields. Its ghost `Elements` is the ordered list the struct stands for, and `Valid()` ties the fields to it. Each member is proved against `Elements`:
  - indexer, `Set`, `IndexOf` and `Contains`;
  - `Add` and `Clear`;
  - `Insert`, `RemoveAt` and `Remove`.

  Below index 3, the shift-down chain of `RemoveAt` always writes the first overflow element into slot 1, and slot 2 keeps its old value. At index 0 or 1 the chain does remove the element at `index`, but slots 1 and 2 come out exchanged. At index 2 it removes the element in slot 1 and keeps the one in slot 2. The model states exactly what the code leaves, as `RemovedBelowThree`. `RemovedBelowThreeSwaps` relates it to true removal. `RemoveBelowThreeIsNotRemoval` shows the difference on a concrete list, and `RemoveBelowThreeAgreement` says exactly when the two agree.
- **`ListenerLink`** (`listener_link.dfy`, module `ListenerLinks`). A listener link packs a node index and an argument slot into one 32-bit word: `(index << SHIFT) | argument`. `Argument` is the word `& 0b1111`, and `Index` is the word `>> SHIFT`. `+` and `-` move the index.
  - The C# operators are modelled on unbounded integers, with 32-bit two's-complement wrap-around written out: `Wrap32`, a bitwise `Or`, `ShiftLeft` and an arithmetic `ShiftRight`.
  - The shift is a parameter `s`. The source's `SHIFT` is `ILogB(0b1111)`, which is 3 (`ShiftIsThree`). With a shift of at least 4, a link reads back its index and argument, and `+`/`-` are inverse (`RoundTrip`, `PackInjective`, `PlusMinus`). With the source's shift of 3, the mask overlaps the index field. `SourceShiftOverlaps` shows that `(1, 0)` and `(0, 8)` pack to the same word.
- **Dependency nodes** (`dependency_nodes.dfy`, module `DependencyNodes`).
  - `Expression.ToNode` and `ToNodes` lower an expression tree into a flat list of nodes in pre-order. Each child node records a listener link back to its parent and the input slot it fills. Each node's value is the function applied to its inputs' values.
    - The lowering is specified by the recursive functions `Lower`/`LowerInputs` and the evaluator `Eval`. The method `ToNode` keeps the source's loop and is proved equal to that specification.
    - `LowerShape` proves the shape facts: one node per sub-expression, the root first and named, and every other node unnamed and holding the value of its sub-expression. Every other node also carries exactly one link `(p, a)`. The expression lowered at the earlier position `p` takes this node's expression as its input `a`, and this node sits exactly where the lowering of that input starts: right after `p` and the expressions of `p`'s inputs before `a`. So a sub-expression that occurs twice still gets the slot of its own occurrence.
    - `LinkToFields` shows how such a link reads back under the source's shift of 3. `Index` gives the parent, but `Argument` gives the slot plus 8 whenever the parent's position is odd.
  - `DependencyNodeSet.Add` lowers an expression and picks a free range from its gap set. It removes that range, rebases every listener link by the range's start, and copies the nodes into the store, overwriting or appending.
    - The selection in the gap set is modelled as a best fit: a gap with the least length among those long enough.
    - `Place` and `Rebase` specify the copy, and `PlaceSpec` proves where each node lands and that nothing else changes.
- **`DependencyVocabulary`** (`dependency_function.dfy`, module `DependencyFunctions`). It maps functions to their argument signatures. A signature matches an argument type list when the arities agree and each argument is assignable to the declared type. The type system's assignability test is a parameter.

`wrappers.dfy` holds the `Option` and `Result` types used for null references and thrown exceptions.

Three places where the model departs from the code on purpose:

- **Struct copies.** `DependencyNode` is a C# struct, and its `Listeners` field is a `readonly` `HotList3` struct. Three writes in the source land on copies rather than on the stored nodes:
  - `Dependency/DependencyNodes.cs:35` calls `Listeners.Add` on `child_n`, the node value that the recursive `ToNode` returned, which is a copy of the stored child. Because `Listeners` is a `readonly` struct field, the `Add` itself runs on a further defensive copy, so not even `child_n` changes.
  - `Dependency/DependencyNodes.cs:41` sets `Value` on the local `this_node`, a copy of the node added to the list at line 27. Every stored node therefore keeps `Value` null.
  - `Dependency/DependencyNodes.cs:98` rebases the `Listeners` of a node copied out of the batch.

  The model writes into the stored nodes: `Lower` stores each node's link and its value `Some(Eval(...))`. This is the behaviour the surrounding code relies on.
- **Gap release and names.** `Add` never gives back the unused end of the range it takes, and it never writes `Names`. The model follows the code:
  - After the first successful `Add`, no gap is left and every later `Add` fails (`SecondAddFindsNoGap`).
  - `Names` is never written, so `IndexOf` answers -1 for every name.
- **Fields nobody sets.** Several fields are declared without any writer, so the code as written cannot do its work:
  - `Expression.Fn` and `Expression.Inputs` (`Dependency/DependencyNodes.cs:15-16`) are `readonly`, have no initializer, and `Expression` has no constructor. Both are always null. Every `ToNode` call therefore throws a null reference at line 28 (`Inputs.Count`), and `DependencyNodeSet.Add` (line 84) never succeeds.
  - `Signature.Types` (`Dependency/DependencyFunction.cs:22`) is never assigned, and the private `Signatures` dictionary (line 13) has no writer. `Matches` therefore always returns false, and `MatchesType` is never reached.

  The model assumes constructors that set these fields: an expression is a value with a function and a list of inputs, and a signature is a value with its list of types. `Matches` is specified for any dictionary of registered signatures, as if a way to register them existed.

## Model

| member | source | states |
|---|---|---|
| HotList.HotList3.constructor | DataStructures/HotList.cs:14-18 | the default struct is the empty list with no overflow list |
| HotList.HotList3.Get | DataStructures/HotList.cs:20-32 | an index in range yields that element of the ordered list; an index at or past `Count` throws IndexOutOfRange; a negative index throws |
| HotList.HotList3.Set | DataStructures/HotList.cs:35-45 | an index in range replaces exactly that element; otherwise an exception is reported and the list is unchanged; the fixed slots are untouched for indices 3 and up |
| HotList.ListIndexOf | DataStructures/HotList.cs:75 | -1 exactly when the item is absent, else the position of its first occurrence |
| HotList.HotList3.IndexOf | DataStructures/HotList.cs:69-77 | -1 exactly when the item is not in the list, otherwise the position of its first occurrence |
| HotList.HotList3.Contains | DataStructures/HotList.cs:49 | true exactly when the item is in the list |
| HotList.HotList3.Add | DataStructures/HotList.cs:79-89 | appends the item; the fourth element creates the overflow list holding just that item; later appends leave the fixed slots alone |
| HotList.HotList3.Clear | DataStructures/HotList.cs:91-95 | the list becomes empty and the overflow list is dropped |
| HotList.HotList3.Insert | DataStructures/HotList.cs:97-104 | the item lands at `index` and every later element moves up by one |
| HotList.HotList3.RemoveAt | DataStructures/HotList.cs:114-121 | at index 3 or above, removes that element and leaves the fixed slots alone; below 3, leaves `RemovedBelowThree` of the old list |
| HotList.RemovedBelowThreeSwaps | DataStructures/HotList.cs:116-119 | below index 3, the list the shift-down chain leaves is a true removal with slots 1 and 2 exchanged; the element removed is the one at the index for indices 0 and 1, but the one in slot 1 for index 2; it holds the same multiset of elements as that removal |
| HotList.HotList3.Remove | DataStructures/HotList.cs:106-112 | reports removal exactly when the item was present; when absent, the list is unchanged; when present, its first occurrence goes through `RemoveAt` |
| HotList.RemoveBelowThreeIsNotRemoval | DataStructures/HotList.cs:116-119 | removing position 2 from `[0, 1, 2, 3]` leaves `[0, 3, 2]`, not `[0, 1, 3]` |
| HotList.RemoveBelowThreeAgreement | DataStructures/HotList.cs:116-119 | below index 3 the result equals true removal exactly when the old slot 2 equals the first overflow element (and, at index 2, slot 1 equals them too) |
| ListenerLinks.Wrap32 | Dependency/DependencyNodes.cs:158-159 | C#'s wrapping `int` arithmetic: the result is the `int` with the same low 32 bits as the exact value, and a value already in range is unchanged |
| ListenerLinks.ShiftRight | Dependency/DependencyNodes.cs:151 | C#'s `>>` on `int`, an arithmetic shift: the result is the floor of `x / 2^s`, for negative words too |
| ListenerLinks.ShiftLeftExact | Dependency/DependencyNodes.cs:153 | `ShiftLeft`, C#'s `<<` on `int`: when the shifted index stays below the sign bit, the shift is multiplication by `2^s` |
| ListenerLinks.OrDisjoint | Dependency/DependencyNodes.cs:153 | `Or`, C#'s `|` on `int`: or-ing an argument below `2^s` into a non-negative multiple of `2^s` is addition |
| ListenerLinks.PackPosition | Dependency/DependencyNodes.cs:153 | `Pack`/`PackAt`, the constructor `(index << SHIFT) | argument`: for an argument below `2^s` and an index whose shift stays below the sign bit, the packed word is `index * 2^s + argument` |
| ListenerLinks.ILogB | Dependency/DependencyNodes.cs:146 | the integer base-2 logarithm: `2^r <= n < 2^(r+1)` |
| ListenerLinks.ShiftIsThree | Dependency/DependencyNodes.cs:145-146 | `SHIFT`, the logarithm of the mask `0b1111`, is 3 |
| ListenerLinks.Argument | Dependency/DependencyNodes.cs:149 | the argument of any word is between 0 and `ARG_MASK` |
| ListenerLinks.PackIndex | Dependency/DependencyNodes.cs:151-153 | `Index`/`IndexAt`, the word `>> SHIFT`: for an argument below `2^s` and an index whose shift stays below the sign bit, the index reads back from the packed word |
| ListenerLinks.RoundTrip | Dependency/DependencyNodes.cs:149-153 | with a shift of at least 4, a packed link reads back both its index and its argument |
| ListenerLinks.PackInjective | Dependency/DependencyNodes.cs:153-156 | with a shift of at least 4, two packed links are equal exactly when their indices and arguments are equal |
| ListenerLinks.PlusMinus | Dependency/DependencyNodes.cs:158-159 | `Plus`/`PlusAt` and `Minus`/`MinusAt`, the operators `+` and `-`: with a shift of at least 4, `+ offset` moves the index by the offset and keeps the argument, and `- offset` undoes it |
| ListenerLinks.SourceShiftOverlaps | Dependency/DependencyNodes.cs:145-153 | with the source's shift of 3, `(1, 0)` and `(0, 8)` pack to the same word 8, which reads back as argument 8 and index 1 |
| ListenerLinks.Equal | Dependency/DependencyNodes.cs:154-156 | comparing packed words is equality of links |
| ListenerLinks.NotEqual | Dependency/DependencyNodes.cs:157 | the negation of link equality |
| DependencyNodes.ToNode | Dependency/DependencyNodes.cs:23-43 | appends the pre-order lowering of the expression to the list and returns its root node, named, with no listeners and holding the expression's value |
| DependencyNodes.ToNodes | Dependency/DependencyNodes.cs:44-49 | the node list is the lowering of the expression starting at position 0 |
| DependencyNodes.LinkToFields | Dependency/DependencyNodes.cs:146-153 | `LinkTo`, the link `new ListenerLink(this_idx, i)` of line 35: for a parent below `2^28` and a slot below 8, `Index` reads back the parent, and `Argument` reads back the slot plus 8 when the parent's position is odd |
| DependencyNodes.LowerShape | Dependency/DependencyNodes.cs:23-43 | `Lower`/`LowerInputs`, the lowering: one node per sub-expression, in pre-order; the root carries the name, the function and the value of the whole tree; every other node is unnamed, holds its sub-expression's value and records exactly one link `(p, a)`, where the expression lowered at the earlier position `p` takes this node's expression as its input `a` and the node's position is `p + 1` plus the count of expressions in `p`'s inputs before `a` |
| DependencyNodes.LowerInputsShape | Dependency/DependencyNodes.cs:29-40 | the nodes lowered from the first n inputs are one per sub-expression of those inputs, each unnamed, evaluated and linked to the exact parent position and input slot that feed it |
| DependencyNodes.LinkChild | Dependency/DependencyNodes.cs:34-35 | adding the parent link to the child root that `ToNode` returned, in the list it appended, extends the lowered inputs of the parent by that one input |
| DependencyNodes.SubInputShape | Dependency/DependencyNodes.cs:32-36 | the lowering of an input that is an expression consists of nodes of the parent's batch: its root is linked to the parent's position and that input's slot, and its other nodes to their own parents inside it |
| DependencyNodes.ChildBatch | Dependency/DependencyNodes.cs:34-35 | a child's batch, placed after its parent, is linked within the parent's batch: the child's root to the parent's position and slot, and its other nodes as within the child's own batch |
| DependencyNodes.LowerCount | Dependency/DependencyNodes.cs:84 | the lowering has exactly one node per sub-expression |
| DependencyNodes.BestFitExists | Dependency/DependencyNodes.cs:87-89 | `BestFit`, the gap lookup: whenever some gap is long enough, a best-fitting gap exists |
| DependencyNodes.RebaseListeners | Dependency/DependencyNodes.cs:97-98 | `RebaseLinks`, the inner loop: every listener link of the node is moved by the offset with `+`; nothing else in the node changes |
| DependencyNodes.RebaseStep | Dependency/DependencyNodes.cs:93-98 | `Rebase`, the batch rebased: rebasing the first i + 1 nodes is rebasing the first i and then node i's links |
| DependencyNodes.PlaceSpec | Dependency/DependencyNodes.cs:99-103 | `Place`, the copy: after it the store is as long as the larger of its old length and the end of the batch; the batch sits from `start` on; every other slot keeps its value |
| DependencyNodes.DependencyNodeSet.constructor | Dependency/DependencyNodes.cs:77-80 | a new set holds one gap `(0, int.MaxValue)`, no nodes and no names |
| DependencyNodes.DependencyNodeSet.Add | Dependency/DependencyNodes.cs:82-106 | fails, changing nothing, exactly when no gap is long enough for the lowered batch; otherwise removes a best-fitting gap, returns its start, and stores the batch rebased by that start at that start |
| DependencyNodes.DependencyNodeSet.IndexOf | Dependency/DependencyNodes.cs:111-115 | the index recorded for the name, which is a position of the store, or -1 when the name is unknown |
| DependencyFunctions.MatchesType | Dependency/DependencyFunction.cs:24-32 | false on an arity mismatch; with equal arity, true exactly when every argument type is assignable to the declared type |
| DependencyFunctions.AnyFits | Dependency/DependencyFunction.cs:17 | true exactly when some signature in the list fits the argument types |
| DependencyFunctions.DependencyVocabulary.constructor | Dependency/DependencyFunction.cs:13 | a new vocabulary knows no function |
| DependencyFunctions.DependencyVocabulary.Matches | Dependency/DependencyFunction.cs:14-18 | false for an unknown function; otherwise true exactly when one of its signatures fits the argument types |

## Left out

- HotList.HotList3.Get: for a negative index, the contract says only that an exception results. The body throws NullReference or ArgumentOutOfRange from the overflow list, as the source does.
- HotList.HotList3.Insert: requires the overflow list to exist, the fixed slots to be full and `0 <= index <= Count`.
  - Every swap cascade ends in `Extra.Insert`, which dereferences the list.
  - An index past the end throws inside `List.Insert`.
  - A negative index skips the cascade and still increments `Count`.
  
  Those failing paths are not modelled.
- HotList.HotList3.RemoveAt: requires `0 <= index < Count` and, below index 3, a non-empty overflow list. The paths it excludes all throw, and those throws are not modelled:
  - An index outside `0..Count-1` reaches `Extra.RemoveAt` (`DataStructures/HotList.cs:119`) with a null list or an index out of its range.
  - An index below 3 with a null overflow list skips line 118 and throws a null reference at line 119.
  - An index below 3 with an overflow list that is present but empty throws `ArgumentOutOfRange` at line 118's `Extra[0]`. A list of `Count` 3 reaches this state when one element is removed from four.

  In the last two cases, with an index of 0 or 1, lines 116-117 have already shifted `Item1` into `Item0` and `Item2` into `Item1` before the throw.
- HotList.HotList3.Remove: requires that a list of at most three elements does not hold the item. Otherwise `RemoveAt` is called below index 3 while the overflow list is null or empty, and it throws (a null reference or `ArgumentOutOfRange`, as under `RemoveAt`). That throw is not modelled.
- `HotList3` element equality is Dafny equality. `Item0.Equals(item)` on a null slot throws in the source, and that throw is not modelled.
- `HotList3.CopyTo`, `GetEnumerator` and `IsReadOnly` are left out. They only read the same fields the indexer reads.
- Aliasing of the `Extra` list between copies of a `HotList3` struct is not modelled. Each list owns its overflow sequence.
- The struct-copy writes at `Dependency/DependencyNodes.cs:35,41,98` are modelled as writes to the stored node, not to a discarded copy. In the source every stored node keeps `Value` null and no stored node records a listener link.
- `DependencyNodeSet`'s update channel (`_Updates`, `Updates`), `_LockObjects`, the empty `Update` method, `UpdateArgs` and `NodeReference` hold no logic and are left out.
- `SizeComparer` is declared but never used, and is left out.
- The skip list that holds the gaps (`SkipList.TryGetBeforeOrEqual`, `Add`, `Remove`) is not part of this model.
  - Its lookup with the key `(1, count)` is modelled as a best-fit choice: a gap with the least length among those at least `count` long. This is the choice the author's comment at `Dependency/DependencyNodes.cs:86` asks about.
  - In every reachable state the gap set is either the single initial gap or empty, and then both choices agree.
- DependencyNodes.DependencyNodeSet.Add: the contract does not pin which best-fitting gap is taken when several tie, because the skip list's order among them is not modelled. The node values are the lowered values, not boxed objects.
- `DependencyNode.Values`, `IsLiteral`, `IsHead` and `Expression.ToString` are left out. `Values` is never written, the two properties only test a field for null, and `ToString` only throws.
- Function values are Dafny functions from argument lists to a value, and are never null. Delegate identity for the vocabulary's dictionary keys is modelled as equality on a key type `F`.
- `Signature.MatchesRules` and `Rules` are left out. `MatchesRules` has no complete body in the source and is never called.
- `Type.IsAssignableTo` is runtime reflection and is passed in as a parameter.
- `Expression` has no constructor that sets `Fn` and `Inputs`, and `Signature` has none that sets `Types`. The model assumes such constructors. The null reference that every `ToNode` call throws at `Dependency/DependencyNodes.cs:28`, and that every `Add` therefore throws, is not modelled.
- `DependencyVocabulary` has no way to register signatures, in the source as in the model. The model specifies `Matches` for any dictionary of signatures; as written, the dictionary stays empty and `Matches` is always false.
- Null arguments are not modelled, because Dafny's strings and datatypes are never null. `IndexOf(null)` throws an `ArgumentNullException` from `Names.TryGetValue` (`Dependency/DependencyNodes.cs:113`), and `Add(name, null)` throws a null reference at line 84.

=== FILE: dependency_function.dfy ===
/** The signature check of `DependencyFunction.cs`: a vocabulary maps each
    function to the argument signatures it accepts, and a list of argument
    types matches when some registered signature has the same arity and
    accepts each type at its position. `Type.IsAssignableTo` is the parameter
    `assignable`, read as "a value of the first type may be passed where the
    second is expected". */
module DependencyFunctions {

  /** A `Signature`: the parameter types, in order. */
  datatype Signature<Ty> = Signature(types: seq<Ty>)

  /** What `MatchesType` decides: same arity, and every supplied type is
      assignable to the registered type at the same position. */
  predicate Fits<Ty>(sig: Signature<Ty>, types: seq<Ty>, assignable: (Ty, Ty) -> bool)
  {
    && |sig.types| == |types|
    && forall i :: 0 <= i < |types| ==> assignable(types[i], sig.types[i])
  }

  /** `Signature.MatchesType`: checks the arity, then each position in order,
      returning at the first type that is not assignable. */
  method MatchesType<Ty>(sig: Signature<Ty>, types: seq<Ty>, assignable: (Ty, Ty) -> bool) returns (r: bool)
    ensures |sig.types| != |types| ==> !r
    ensures |sig.types| == |types| ==> (r <==> forall i :: 0 <= i < |types| ==> assignable(types[i], sig.types[i]))
  {
    if |sig.types| != |types| {
      return false;
    }
    for i := 0 to |sig.types|
      invariant forall k :: 0 <= k < i ==> assignable(types[k], sig.types[k])
    {
      if !assignable(types[i], sig.types[i]) {
        return false;
      }
    }
    return true;
  }

  /** `sigs.Any(s => s.MatchesType(types))`. */
  function AnyFits<Ty>(sigs: seq<Signature<Ty>>, types: seq<Ty>, assignable: (Ty, Ty) -> bool): (r: bool)
    ensures r <==> exists k :: 0 <= k < |sigs| && Fits(sigs[k], types, assignable)
  {
    if sigs == [] then false
    else Fits(sigs[0], types, assignable) || AnyFits(sigs[1..], types, assignable)
  }

  /** `DependencyVocabulary`: the signatures registered per function. */
  class DependencyVocabulary<F(==), Ty> {
    var Signatures: map<F, seq<Signature<Ty>>>

    constructor ()
      ensures Signatures == map[]
    {
      Signatures := map[];
    }

    /** `Matches`: false for a function with no registered signatures,
        otherwise true exactly when one of its signatures fits. */
    function Matches(fn: F, types: seq<Ty>, assignable: (Ty, Ty) -> bool): (r: bool)
      reads this
      ensures fn !in Signatures ==> !r
      ensures r <==> fn in Signatures && exists k :: 0 <= k < |Signatures[fn]| && Fits(Signatures[fn][k], types, assignable)
    {
      fn in Signatures && AnyFits(Signatures[fn], types, assignable)
    }
  }
}

=== FILE: dependency_nodes.dfy ===
/** Expression lowering and batch placement of `DependencyNodes.cs`.

    An `Expression` is a function applied to inputs, each a literal or another
    expression. `ToNode` lowers it in pre-order into a flat list of
    `DependencyNode`s: the node of an expression is appended before the nodes
    of its sub-expressions, each sub-expression's node records a
    `ListenerLink` back to (its parent's position, the input slot it feeds),
    and the node's value is the function applied to the input values.
    `DependencyNodeSet.Add` places such a batch in the flat store `_Nodes`: it
    takes a free range (a gap), rebases every link by the range's start and
    overwrites or appends the nodes from that start on.

    Nodes are C# structs. The model keeps them as records addressed by their
    index in a sequence and writes every update into that sequence, which is
    what the writes to `this_node`, `child_n` and `n.Listeners` are meant to
    do. */
module DependencyNodes {
  import opened Wrappers
  import opened ListenerLinks

  /** A `DependencyFunction`: an arbitrary function of the argument list. */
  type Function<!V> = seq<V> -> V

  datatype Input<!V> = Lit(value: V) | Sub(expr: Expr<V>)

  datatype Expr<!V> = Expr(fn: Function<V>, inputs: seq<Input<V>>)

  /** A `DependencyNode`: `value` is `None` until the node is evaluated (a
      null `Value`), `listeners` are its dependents. */
  datatype Node<!V> = Node(name: Option<string>, fn: Function<V>, value: Option<V>, listeners: seq<ListenerLink>)

  // ----- reference semantics of an expression tree -----

  /** Direct recursive evaluation of an expression. */
  function Eval<V>(e: Expr<V>): V
    decreases e, 2
  {
    e.fn(InputValues(e, |e.inputs|))
  }

  /** The values of the first `n` inputs: a literal, or the evaluated
      sub-expression. */
  function InputValues<V>(e: Expr<V>, n: nat): (vs: seq<V>)
    requires n <= |e.inputs|
    decreases e, 1, n
  {
    if n == 0 then []
    else
      InputValues(e, n - 1) + [match e.inputs[n - 1] case Lit(v) => v case Sub(c) => Eval(c)]
  }

  /** Every expression of the tree, in pre-order; literals are not listed. */
  function Subexprs<V>(e: Expr<V>): seq<Expr<V>>
    decreases e, 1
  {
    [e] + InputSubexprs(e, |e.inputs|)
  }

  function InputSubexprs<V>(e: Expr<V>, n: nat): seq<Expr<V>>
    requires n <= |e.inputs|
    decreases e, 0, n
  {
    if n == 0 then []
    else
      InputSubexprs(e, n - 1) + match e.inputs[n - 1] case Lit(_) => [] case Sub(c) => Subexprs(c)
  }

  // ----- the lowered batch -----

  /** The link `new ListenerLink(parent, slot)` that a lowered child records. */
  function LinkTo(parent: nat, slot: nat): ListenerLink
  {
    Pack(Wrap32(parent), Wrap32(slot))
  }

  /** How a lowered link reads back with the source's `SHIFT` of 3: for a
      parent below `2^28` and one of the first eight slots, `Index` is the
      parent, but `Argument` is the slot plus 8 whenever the parent's
      position is odd, since bit 3 is shared. */
  lemma LinkToFields(parent: nat, slot: nat)
    requires slot < 8 && parent < Pow2(28)
    ensures Index(LinkTo(parent, slot)) == parent
    ensures Argument(LinkTo(parent, slot)) == slot + 8 * (parent % 2)
  {
    LinkToPosition(parent, slot);
    ArgumentOfPosition(LinkTo(parent, slot), parent, slot);
  }

  /** The low four bits of `parent * 8 + slot` hold the slot and the parent's
      lowest bit. */
  lemma ArgumentOfPosition(l: ListenerLink, parent: nat, slot: nat)
    requires slot < 8 && l.position == parent * 8 + slot
    ensures Argument(l) == slot + 8 * (parent % 2)
  {
    assert parent * 8 + slot == (parent / 2) * 16 + (8 * (parent % 2) + slot);
    DivModUnique(parent / 2, 8 * (parent % 2) + slot, 16);
  }

  /** A lowered link is the parent's position times 8 plus the slot. */
  lemma LinkToPosition(parent: nat, slot: nat)
    requires slot < 8 && parent < Pow2(28)
    ensures LinkTo(parent, slot).position == parent * 8 + slot
    ensures Index(LinkTo(parent, slot)) == parent
  {
    Pow2Monotone(28, 31);
    Pow2Words();
    assert Wrap32(parent) == parent && Wrap32(slot) == slot;
    ShiftIsThree();
    assert Pow2(3) == 8 && Pow2(28) == Pow2(31 - 3);
    assert LinkTo(parent, slot) == PackAt(3, parent, slot);
    PackIndex(3, parent, slot);
  }

  /** The nodes that lowering `e` appends when its own node lands at position
      `self`; `up` are the links its parent later adds to that node. */
  function Lower<V>(e: Expr<V>, name: Option<string>, self: nat, up: seq<ListenerLink>): seq<Node<V>>
    decreases e, 1
  {
    [Node(name, e.fn, Some(Eval(e)), up)] + LowerInputs(e, |e.inputs|, self)
  }

  /** The nodes of the sub-expressions among the first `n` inputs of `e`, whose
      own node is at position `self`. */
  function LowerInputs<V>(e: Expr<V>, n: nat, self: nat): seq<Node<V>>
    requires n <= |e.inputs|
    decreases e, 0, n
  {
    if n == 0 then []
    else
      var prev := LowerInputs(e, n - 1, self);
      match e.inputs[n - 1]
      case Lit(_) => prev
      case Sub(c) => prev + Lower(c, None, self + 1 + |prev|, [LinkTo(self, n - 1)])
  }

  /** `Expression.ToNode`: appends the nodes of `e` to `result` and returns the
      node of `e` itself, whose value is the direct evaluation of `e`. */
  method ToNode<V>(e: Expr<V>, name: Option<string>, result: seq<Node<V>>) returns (node: Node<V>, nodes: seq<Node<V>>)
    decreases e
    ensures nodes == result + Lower(e, name, |result|, [])
    ensures node == Node(name, e.fn, Some(Eval(e)), [])
  {
    var thisIdx := |result|;
    var thisNode := Node(name, e.fn, None, []);
    nodes := result + [thisNode];
    var childValues: seq<V> := [];
    for i := 0 to |e.inputs|
      invariant nodes == result + [thisNode] + LowerInputs(e, i, thisIdx)
      invariant childValues == InputValues(e, i)
    {
      ghost var prev := LowerInputs(e, i, thisIdx);
      match e.inputs[i]
      case Sub(c) =>
        var childIdx := |nodes|;
        ghost var before := nodes;
        var child;
        child, nodes := ToNode(c, None, nodes);
        var link := LinkTo(thisIdx, i);
        LinkChild(e, i, thisIdx, c, result + [thisNode], before, child, link);
        nodes := nodes[childIdx := child.(listeners := child.listeners + [link])];
        childValues := childValues + [child.value.value];
      case Lit(v) =>
        assert LowerInputs(e, i + 1, thisIdx) == prev;
        childValues := childValues + [v];
    }
    node := thisNode.(value := Some(e.fn(childValues)));
    UpdateAfterPrefix(result, [thisNode] + LowerInputs(e, |e.inputs|, thisIdx), node);
    nodes := nodes[thisIdx := node];
  }

  /** Appending `tail` to `head + prev` is appending `prev + tail` to `head`. */
  lemma AppendStep<T>(before: seq<T>, head: seq<T>, prev: seq<T>, tail: seq<T>, next: seq<T>, after: seq<T>)
    requires before == head + prev && after == before + tail && next == prev + tail
    ensures after == head + next
  {
    assert head + prev + tail == head + (prev + tail);
  }

  /** Recording the link to its parent in the root of a child's lowering
      extends the parent's lowered inputs by one input. */
  lemma LinkChild<V>(e: Expr<V>, i: nat, self: nat, c: Expr<V>, head: seq<Node<V>>, before: seq<Node<V>>,
                     child: Node<V>, link: ListenerLink)
    requires i < |e.inputs| && e.inputs[i] == Sub(c) && link == LinkTo(self, i)
    requires |head| == self + 1 && before == head + LowerInputs(e, i, self)
    requires child == Node(None, c.fn, Some(Eval(c)), [])
    ensures (before + Lower(c, None, |before|, []))[|before| := child.(listeners := child.listeners + [link])]
      == head + LowerInputs(e, i + 1, self)
  {
    var b := |before|;
    LowerInputsStep(e, i, self, c, b);
    Relink(c, b, child, link);
    RootReplaced(before, head, LowerInputs(e, i, self), Lower(c, None, b, []), Lower(c, None, b, [link]),
                 child.(listeners := child.listeners + [link]), LowerInputs(e, i + 1, self));
  }

  /** Lowering `c` with the link `link` is lowering it with none and then
      recording `link` in its root. */
  lemma Relink<V>(c: Expr<V>, b: nat, child: Node<V>, link: ListenerLink)
    requires child == Node(None, c.fn, Some(Eval(c)), [])
    ensures Lower(c, None, b, [link]) == [child.(listeners := child.listeners + [link])] + Lower(c, None, b, [])[1..]
  {
    assert child.listeners + [link] == [link];
  }

  /** Replacing the first element of `lowered`, appended after `before`, by `x`. */
  lemma RootReplaced<T>(before: seq<T>, head: seq<T>, prev: seq<T>, lowered: seq<T>, linked: seq<T>, x: T, next: seq<T>)
    requires |lowered| > 0 && before == head + prev
    requires linked == [x] + lowered[1..] && next == prev + linked
    ensures (before + lowered)[|before| := x] == head + next
  {
    UpdateAfterPrefix(before, lowered, x);
    AppendStep(before, head, prev, linked, next, before + linked);
  }

  lemma UpdateAfterPrefix<T>(a: seq<T>, b: seq<T>, x: T)
    requires |b| > 0
    ensures (a + b)[|a| := x] == a + [x] + b[1..]
  {
  }

  /** `Expression.ToNodes`: the batch of `e`, its root at position 0. */
  method ToNodes<V>(e: Expr<V>, name: Option<string>) returns (nodes: seq<Node<V>>)
    ensures nodes == Lower(e, name, 0, [])
  {
    var root;
    root, nodes := ToNode(e, name, []);
  }

  // ----- shape of a lowered batch -----

  /** Node `n`, lowered from the expression `x` at position `at`, records
      exactly one link, `(p, a)`: `p` is a position in `[lo, at)`, the
      expression lowered at `p` (`all[p - lo]`, where `all` lists the
      expressions lowered from `lo` on) has an input slot `a`, that input is
      `x` itself, and `at` is where the lowering of that input starts: right
      after the parent and the expressions of its inputs before `a`. */
  ghost predicate LinkedToParent<V>(n: Node<V>, x: Expr<V>, all: seq<Expr<V>>, lo: nat, at: nat)
  {
    exists p: nat, a: nat ::
      && lo <= p < at && p - lo < |all|
      && a < |all[p - lo].inputs| && all[p - lo].inputs[a] == Sub(x)
      && at == p + 1 + |InputSubexprs(all[p - lo], a)|
      && n.listeners == [LinkTo(p, a)]
  }

  /** `L` holds the unnamed, evaluated nodes of the expressions `xs`, the first
      at position `at`, each linked to the input slot that feeds it in an
      earlier expression of `all`. */
  ghost predicate InternalNodes<V>(L: seq<Node<V>>, xs: seq<Expr<V>>, all: seq<Expr<V>>, lo: nat, at: nat)
  {
    && |L| == |xs|
    && forall j :: 0 <= j < |L| ==>
         && L[j].name.None?
         && L[j].fn == xs[j].fn
         && L[j].value == Some(Eval(xs[j]))
         && LinkedToParent(L[j], xs[j], all, lo, at + j)
  }

  /** Lowering yields one node per expression of the tree, in pre-order. The
      root comes first with the given name, its value the evaluation of the
      whole tree. Every other node is unnamed, holds the evaluation of its own
      sub-expression, and records the one link `(p, a)` such that the
      expression lowered at the earlier position `p` takes this node's
      expression as its input `a`. */
  lemma {:induction false} LowerShape<V>(e: Expr<V>, name: Option<string>, self: nat, up: seq<ListenerLink>)
    decreases e, 1
    ensures |Lower(e, name, self, up)| == |Subexprs(e)|
    ensures Lower(e, name, self, up)[0] == Node(name, e.fn, Some(Eval(e)), up)
    ensures InternalNodes(Lower(e, name, self, up)[1..], Subexprs(e)[1..], Subexprs(e), self, self + 1)
  {
    LowerInputsShape(e, |e.inputs|, self);
    assert Lower(e, name, self, up)[1..] == LowerInputs(e, |e.inputs|, self);
    assert Subexprs(e)[1..] == InputSubexprs(e, |e.inputs|);
  }

  /** One node per expression of the tree. */
  lemma LowerCount<V>(e: Expr<V>, name: Option<string>)
    ensures |Lower(e, name, 0, [])| == |Subexprs(e)|
  {
    LowerShape(e, name, 0, []);
  }

  /** The expressions of the first `k` inputs open the list of the first `n`. */
  lemma {:induction false} InputSubexprsPrefix<V>(e: Expr<V>, k: nat, n: nat)
    requires k <= n <= |e.inputs|
    ensures |InputSubexprs(e, k)| <= |InputSubexprs(e, n)|
    ensures InputSubexprs(e, n)[..|InputSubexprs(e, k)|] == InputSubexprs(e, k)
    decreases n
  {
    if k < n {
      InputSubexprsPrefix(e, k, n - 1);
      if e.inputs[n - 1].Sub? {
        PrefixExtend(InputSubexprs(e, k), InputSubexprs(e, n - 1), Subexprs(e.inputs[n - 1].expr));
      } else {
        assert InputSubexprs(e, n) == InputSubexprs(e, n - 1);
      }
    }
  }

  /** A prefix of `b` is a prefix of `b + d`. */
  lemma PrefixExtend<T>(a: seq<T>, b: seq<T>, d: seq<T>)
    requires |a| <= |b| && b[..|a|] == a
    ensures |a| <= |b + d| && (b + d)[..|a|] == a
  {
    assert (b + d)[..|a|] == b[..|a|];
  }

  lemma {:induction false} LowerInputsShape<V>(e: Expr<V>, n: nat, self: nat)
    requires n <= |e.inputs|
    decreases e, 0, n, 1
    ensures InternalNodes(LowerInputs(e, n, self), InputSubexprs(e, n), Subexprs(e), self, self + 1)
  {
    if n > 0 {
      LowerInputsShape(e, n - 1, self);
      if e.inputs[n - 1].Sub? {
        var c, prev := e.inputs[n - 1].expr, LowerInputs(e, n - 1, self);
        var b := self + 1 + |prev|;
        LowerInputsStep(e, n - 1, self, c, b);
        SubInputShape(e, n, self, c, 1 + |InputSubexprs(e, n - 1)|, b);
        InternalNodesAppend(prev, InputSubexprs(e, n - 1), Lower(c, None, b, [LinkTo(self, n - 1)]), Subexprs(c),
                            Subexprs(e), self, self + 1, b);
      } else {
        assert LowerInputs(e, n, self) == LowerInputs(e, n - 1, self);
        assert InputSubexprs(e, n) == InputSubexprs(e, n - 1);
      }
    } else {
      assert LowerInputs(e, n, self) == [] && InputSubexprs(e, n) == [];
    }
  }

  /** The lowering of an input that is an expression `c`, placed right after
      the nodes of the inputs before it, consists of internal nodes of the
      parent's batch: its root is linked to the parent `self` at that input's
      slot, and its other nodes as within `c`'s own batch. */
  lemma {:induction false} SubInputShape<V>(e: Expr<V>, n: nat, self: nat, c: Expr<V>, d: nat, b: nat)
    requires 0 < n <= |e.inputs| && e.inputs[n - 1] == Sub(c)
    requires d == 1 + |InputSubexprs(e, n - 1)| && b == self + d
    decreases e, 0, n, 0
    ensures InternalNodes(Lower(c, None, b, [LinkTo(self, n - 1)]), Subexprs(c), Subexprs(e), self, b)
  {
    var link := LinkTo(self, n - 1);
    LowerShape(c, None, b, [link]);
    ChildSlice(e, n, c, d);
    SubexprsRoot(c);
    SubexprsRoot(e);
    ChildBatch(Lower(c, None, b, [link]), Subexprs(c), c, Subexprs(e), self, n - 1, d, b);
  }

  /** An expression opens its own list of expressions. */
  lemma SubexprsRoot<V>(e: Expr<V>)
    ensures 0 < |Subexprs(e)| && Subexprs(e)[0] == e
  {
  }

  /** An input `k` that is an expression `c` appends the lowering of `c`,
      placed at `b`, right after the nodes lowered so far, and the expressions
      of `c`. */
  lemma LowerInputsStep<V>(e: Expr<V>, k: nat, self: nat, c: Expr<V>, b: nat)
    requires k < |e.inputs| && e.inputs[k] == Sub(c) && b == self + 1 + |LowerInputs(e, k, self)|
    ensures LowerInputs(e, k + 1, self) == LowerInputs(e, k, self) + Lower(c, None, b, [LinkTo(self, k)])
    ensures InputSubexprs(e, k + 1) == InputSubexprs(e, k) + Subexprs(c)
  {
  }

  /** The expressions of input `n - 1` sit in `Subexprs(e)` right after those
      of the inputs before it. */
  lemma ChildSlice<V>(e: Expr<V>, n: nat, c: Expr<V>, d: nat)
    requires 0 < n <= |e.inputs| && e.inputs[n - 1] == Sub(c)
    requires d == 1 + |InputSubexprs(e, n - 1)|
    ensures SitsAt(Subexprs(e), d, Subexprs(c))
  {
    var xs, cs := InputSubexprs(e, n - 1), Subexprs(e.inputs[n - 1].expr);
    assert InputSubexprs(e, n) == xs + cs;
    InputSubexprsPrefix(e, n, |e.inputs|);
    SliceAfter(Subexprs(e), e, InputSubexprs(e, |e.inputs|), xs, cs);
  }

  /** In `[x] + full`, where `full` opens with `xs + cs`, `cs` sits right
      after `xs`. */
  lemma SliceAfter<T>(all: seq<T>, x: T, full: seq<T>, xs: seq<T>, cs: seq<T>)
    requires all == [x] + full && |xs| + |cs| <= |full| && full[..|xs| + |cs|] == xs + cs
    ensures SitsAt(all, 1 + |xs|, cs)
  {
    forall i | 0 <= i < |cs|
      ensures all[1 + |xs| + i] == cs[i]
    {
      assert all[1 + |xs| + i] == full[..|xs| + |cs|][|xs| + i];
    }
  }

  /** `cs` occurs in `all` from position `d` on. */
  ghost predicate SitsAt<T>(all: seq<T>, d: nat, cs: seq<T>)
  {
    d + |cs| <= |all| && forall i :: 0 <= i < |cs| ==> all[d + i] == cs[i]
  }

  /** The batch `C` of an input's expression `c` (whose expressions are
      `cs`), placed `d` positions after its parent at `self` (whose expression
      opens `all`), consists of internal nodes linked within `all`: its root
      to the parent's slot `slot`, the rest as within `c`'s own batch. */
  lemma ChildBatch<V>(C: seq<Node<V>>, cs: seq<Expr<V>>, c: Expr<V>, all: seq<Expr<V>>, self: nat, slot: nat, d: nat, b: nat)
    requires 0 < d && b == self + d && SitsAt(all, d, cs)
    requires slot < |all[0].inputs| && all[0].inputs[slot] == Sub(c)
    requires d == 1 + |InputSubexprs(all[0], slot)|
    requires |C| == |cs| && 0 < |cs| && cs[0] == c
    requires C[0] == Node(None, c.fn, Some(Eval(c)), [LinkTo(self, slot)])
    requires InternalNodes(C[1..], cs[1..], cs, b, b + 1)
    ensures InternalNodes(C, cs, all, self, b)
  {
    forall j | 0 <= j < |C|
      ensures C[j].name.None? && C[j].fn == cs[j].fn && C[j].value == Some(Eval(cs[j]))
      ensures LinkedToParent(C[j], cs[j], all, self, b + j)
    {
      if j == 0 {
        ChildRoot(c, all, self, slot, C[0], b);
      } else {
        assert C[1..][j - 1] == C[j] && cs[1..][j - 1] == cs[j];
        assert b + 1 + (j - 1) == b + j;
        LinkedWithin(C[j], cs[j], cs, all, self, d, b, b + j);
      }
    }
  }

  /** The root of a child's batch, placed at `b`, is linked to the parent's
      slot. */
  lemma ChildRoot<V>(c: Expr<V>, all: seq<Expr<V>>, self: nat, slot: nat, root: Node<V>, b: nat)
    requires 0 < |all| && slot < |all[0].inputs| && all[0].inputs[slot] == Sub(c)
    requires b == self + 1 + |InputSubexprs(all[0], slot)|
    requires root.listeners == [LinkTo(self, slot)]
    ensures LinkedToParent(root, c, all, self, b)
  {
    assert all[self - self].inputs[slot] == Sub(c);
    assert b == self + 1 + |InputSubexprs(all[self - self], slot)|;
  }

  /** A link into the batch of `cs`, which sits at offset `d` in `all`, is a
      link into `all`. */
  lemma LinkedWithin<V>(n: Node<V>, x: Expr<V>, cs: seq<Expr<V>>, all: seq<Expr<V>>, self: nat, d: nat, lo: nat, at: nat)
    requires lo == self + d && SitsAt(all, d, cs)
    requires LinkedToParent(n, x, cs, lo, at)
    ensures LinkedToParent(n, x, all, self, at)
  {
    var p: nat, a: nat :| lo <= p < at && p - lo < |cs| && a < |cs[p - lo].inputs|
      && cs[p - lo].inputs[a] == Sub(x) && at == p + 1 + |InputSubexprs(cs[p - lo], a)|
      && n.listeners == [LinkTo(p, a)];
    assert all[d + (p - lo)] == cs[p - lo];
    assert p - self == d + (p - lo);
    assert self <= p < at && p - self < |all| && a < |all[p - self].inputs| && all[p - self].inputs[a] == Sub(x);
    assert at == p + 1 + |InputSubexprs(all[p - self], a)|;
  }

  lemma InternalNodesAppend<V>(L1: seq<Node<V>>, xs1: seq<Expr<V>>, L2: seq<Node<V>>, xs2: seq<Expr<V>>,
                               all: seq<Expr<V>>, lo: nat, at: nat, at2: nat)
    requires InternalNodes(L1, xs1, all, lo, at) && at2 == at + |L1|
    requires InternalNodes(L2, xs2, all, lo, at2)
    ensures InternalNodes(L1 + L2, xs1 + xs2, all, lo, at)
  {
    var L, xs := L1 + L2, xs1 + xs2;
    forall j | 0 <= j < |L|
      ensures L[j].name.None? && L[j].fn == xs[j].fn && L[j].value == Some(Eval(xs[j]))
      ensures LinkedToParent(L[j], xs[j], all, lo, at + j)
    {
      if j < |L1| {
        assert L[j] == L1[j] && xs[j] == xs1[j];
      } else {
        var i := j - |L1|;
        assert L[j] == L2[i] && xs[j] == xs2[i] && at + j == at2 + i;
      }
    }
  }

  // ----- the node set -----

  /** A free range `(lo, hi)` of the flat store. */
  type Gap = (Int32, Int32)

  function GapLength(g: Gap): int
  {
    g.1 - g.0
  }

  /** `g` is a smallest free range that can hold `n` nodes. */
  predicate BestFit(gaps: set<Gap>, n: nat, g: Gap)
  {
    && g in gaps
    && GapLength(g) >= n
    && forall h :: h in gaps && GapLength(h) >= n ==> GapLength(g) <= GapLength(h)
  }

  lemma BestFitExists(gaps: set<Gap>, n: nat, g: Gap)
    requires g in gaps && GapLength(g) >= n
    ensures exists b :: BestFit(gaps, n, b)
    decreases gaps
  {
    var rest := gaps - {g};
    if h :| h in rest && GapLength(h) >= n {
      BestFitExists(rest, n, h);
      var b :| BestFit(rest, n, b);
      if GapLength(g) < GapLength(b) {
        assert BestFit(gaps, n, g);
      } else {
        assert BestFit(gaps, n, b);
      }
    } else {
      assert BestFit(gaps, n, g);
    }
  }

  /** Every link of a node moved by `offset`: `Listeners.Set(j, Listeners[j] + index)`. */
  function RebaseLinks(links: seq<ListenerLink>, offset: Int32): (r: seq<ListenerLink>)
  {
    seq(|links|, j requires 0 <= j < |links| => Plus(links[j], offset))
  }

  /** The batch with every node's links moved by `offset`. */
  function Rebase<V>(nodes: seq<Node<V>>, offset: Int32): (r: seq<Node<V>>)
  {
    seq(|nodes|, i requires 0 <= i < |nodes| => nodes[i].(listeners := RebaseLinks(nodes[i].listeners, offset)))
  }

  /** The store after copying `batch` in from `start` on, one node at a time:
      a slot inside the store is overwritten, one past it is appended. */
  function Place<T>(store: seq<T>, start: nat, batch: seq<T>): seq<T>
  {
    if batch == [] then store
    else
      var placed := Place(store, start, batch[..|batch| - 1]);
      var k := start + |batch| - 1;
      if k < |placed| then placed[k := batch[|batch| - 1]] else placed + [batch[|batch| - 1]]
  }

  /** Copying a batch to a start inside or at the end of the store puts it at
      `start..start + |batch|`, extends the store only as far as needed and
      leaves every other slot alone. */
  lemma {:induction false} PlaceSpec<T>(store: seq<T>, start: nat, batch: seq<T>)
    requires start <= |store|
    ensures |Place(store, start, batch)| == if start + |batch| > |store| then start + |batch| else |store|
    ensures forall i :: 0 <= i < |batch| ==> Place(store, start, batch)[start + i] == batch[i]
    ensures forall k :: 0 <= k < |store| && !(start <= k < start + |batch|) ==> Place(store, start, batch)[k] == store[k]
  {
    if batch != [] {
      var init := batch[..|batch| - 1];
      PlaceSpec(store, start, init);
      var placed := Place(store, start, init);
      forall i | 0 <= i < |batch| - 1
        ensures Place(store, start, batch)[start + i] == batch[i]
      {
        assert init[i] == batch[i];
      }
    }
  }

  lemma RebaseStep<V>(nodes: seq<Node<V>>, i: nat, offset: Int32)
    requires i < |nodes|
    ensures Rebase(nodes[..i + 1], offset) ==
            Rebase(nodes[..i], offset) + [nodes[i].(listeners := RebaseLinks(nodes[i].listeners, offset))]
  {
    var r, q := Rebase(nodes[..i + 1], offset), Rebase(nodes[..i], offset);
    assert |r| == |q| + 1;
    forall k | 0 <= k < i ensures r[k] == q[k] { }
  }

  lemma PlaceStep<T>(store: seq<T>, start: nat, batch: seq<T>, x: T)
    ensures Place(store, start, batch + [x]) ==
            var placed := Place(store, start, batch);
            if start + |batch| < |placed| then placed[start + |batch| := x] else placed + [x]
  {
    assert (batch + [x])[..|batch|] == batch;
  }

  /** The inner loop of `Add`: every listener of one node moved by `offset`,
      in place, nothing else of the node changed. */
  method RebaseListeners<V>(node: Node<V>, offset: Int32) returns (moved: Node<V>)
    ensures moved == node.(listeners := RebaseLinks(node.listeners, offset))
  {
    var links := node.listeners;
    for j := 0 to |links|
      invariant |links| == |node.listeners|
      invariant forall k :: 0 <= k < j ==> links[k] == Plus(node.listeners[k], offset)
      invariant forall k :: j <= k < |links| ==> links[k] == node.listeners[k]
    {
      links := links[j := Plus(links[j], offset)];
    }
    assert links == RebaseLinks(node.listeners, offset);
    moved := node.(listeners := links);
  }

  datatype AddError = NoAvailableGaps

  /** `DependencyNodeSet`: the flat store `_Nodes`, the free ranges `_Gaps`
      and the name directory `Names`. */
  class DependencyNodeSet<V> {
    var Nodes: seq<Node<V>>
    var Gaps: set<Gap>
    var Names: map<string, int>

    /** Every free range starts inside the store or at its end, and every
        recorded name maps to a position of the store. */
    ghost predicate Valid()
      reads this
    {
      && (forall g :: g in Gaps ==> 0 <= g.0 <= |Nodes|)
      && (forall nm :: nm in Names ==> 0 <= Names[nm] < |Nodes|)
    }

    /** An empty store whose single free range is unbounded above. */
    constructor ()
      ensures Valid() && Nodes == [] && Gaps == {(0, INT_MAX)} && Names == map[]
    {
      Nodes := [];
      Gaps := {(0, INT_MAX)};
      Names := map[];
    }

    /** `Add`: lowers `e`, takes a smallest free range that fits the batch,
        removes it, rebases the batch's links by the range's start and copies
        the batch into the store from that start on; returns the start. Throws
        (here: `Err`) and changes nothing when no free range fits. */
    method Add(name: Option<string>, e: Expr<V>) returns (r: Result<int, AddError>)
      requires Valid()
      modifies this
      ensures Valid() && Names == old(Names)
      ensures r.Err? <==> forall g :: g in old(Gaps) ==> GapLength(g) < |Subexprs(e)|
      ensures r.Err? ==> Nodes == old(Nodes) && Gaps == old(Gaps)
      ensures r.Ok? ==> exists g :: BestFit(old(Gaps), |Subexprs(e)|, g) && g.0 == r.value && Gaps == old(Gaps) - {g}
      ensures r.Ok? ==> 0 <= r.value <= |old(Nodes)| && r.value <= INT_MAX
      ensures r.Ok? ==> Nodes == Place(old(Nodes), r.value, Rebase(Lower(e, name, 0, []), r.value))
    {
      var nodes := ToNodes(e, name);
      LowerCount(e, name);
      var n := |nodes|;
      if g :| g in Gaps && GapLength(g) >= n {
        BestFitExists(Gaps, n, g);
      } else {
        return Err(NoAvailableGaps);
      }
      var available :| BestFit(Gaps, n, available);
      var index := available.0;
      Gaps := Gaps - {available};
      ghost var store := Nodes;
      for i := 0 to n
        invariant Nodes == Place(store, index, Rebase(nodes[..i], index))
        invariant |Nodes| >= |store|
        modifies this`Nodes
      {
        var node := RebaseListeners(nodes[i], index);
        ghost var done := Rebase(nodes[..i], index);
        assert |done| == i;
        if index + i < |Nodes| {
          Nodes := Nodes[index + i := node];
        } else {
          Nodes := Nodes + [node];
        }
        PlaceStep(store, index, done, node);
        assert Nodes == Place(store, index, done + [node]);
        RebaseStep(nodes, i, index);
      }
      assert nodes[..n] == nodes;
      return Ok(index);
    }

    /** `IndexOf`: the position recorded for `name`, or -1. */
    function IndexOf(name: string): (r: int)
      reads this
      requires Valid()
      ensures r >= 0 <==> name in Names
      ensures r < 0 ==> r == -1
      ensures name in Names ==> r == Names[name]
      ensures r >= 0 ==> r < |Nodes|
    {
      if name in Names then Names[name] else -1
    }
  }

  /** A client of the node set: `Add` never gives a range back, so once the
      first batch has taken the initial unbounded range there is no free range
      left and a second `Add` fails. */
  method SecondAddFindsNoGap<V>(first: Expr<V>, second: Expr<V>)
  {
    var store := new DependencyNodeSet<V>();
    var r1 := store.Add(Some("first"), first);
    assert r1.Ok? ==> r1.value == 0 && store.Gaps == {};
    var r2 := store.Add(Some("second"), second);
    assert r1.Ok? ==> r2.Err?;
  }
}

=== FILE: hot_list.dfy ===
/** `HotList3<T>`: an ordered list whose first three elements sit in the fields
    `Item0`, `Item1`, `Item2` and whose later elements sit in a heap list
    `Extra`. `Count` is the total length. The ghost `Elements` is the ordered
    list the structure stands for; `Valid()` ties the slots and `Extra` to it.

    `Extra` is a reference that may be null; it is modelled as an
    `Option<seq<T>>`. Once created it is only replaced by `Add` (when the
    fourth element arrives) and dropped by `Clear`, so while `Count <= 3` it is
    null or an emptied list. */
module HotList {
  import opened Wrappers

  /** The exceptions the list's members can throw. */
  datatype Exception = IndexOutOfRange | ArgumentOutOfRange | NullReference

  /** `List<T>.IndexOf`: the position of the first element equal to `x`, or -1. */
  function ListIndexOf<T(==)>(xs: seq<T>, x: T): (r: int)
    ensures r == -1 <==> x !in xs
    ensures r != -1 ==> 0 <= r < |xs| && xs[r] == x && x !in xs[..r]
  {
    if xs == [] then -1
    else if xs[0] == x then 0
    else
      var i := ListIndexOf(xs[1..], x);
      if i < 0 then -1 else i + 1
  }

  /** The reference behaviour of removing position `i` from an ordered list. */
  function Removed<T>(s: seq<T>, i: nat): seq<T>
    requires i < |s|
  {
    s[..i] + s[i + 1..]
  }

  /** Exchanges positions 1 and 2. */
  function SwapOneTwo<T>(t: seq<T>): seq<T>
    requires |t| >= 3
  {
    [t[0], t[2], t[1]] + t[3..]
  }

  /** What `RemoveAt(i)` leaves for `i < 3` when the overflow is non-empty:
      the shift-down chain writes the first overflow element into slot 1 where
      slot 2 was meant, so slot 2 keeps its old value. */
  function RemovedBelowThree<T>(s: seq<T>, i: nat): seq<T>
    requires i < 3 < |s|
  {
    [if i == 0 then s[1] else s[0], s[3], s[2]] + s[4..]
  }

  /** Below index 3, `RemoveAt` is a true removal with slots 1 and 2
      exchanged; the element it drops is the one at `i` for `i < 2` but the
      one at 1 for `i == 2`. */
  lemma RemovedBelowThreeSwaps<T>(s: seq<T>, i: nat)
    requires i < 3 < |s|
    ensures RemovedBelowThree(s, i) == SwapOneTwo(Removed(s, if i == 2 then 1 else i))
    ensures multiset(RemovedBelowThree(s, i)) == multiset(Removed(s, if i == 2 then 1 else i))
  {
    var t := Removed(s, if i == 2 then 1 else i);
    assert t[3..] == s[4..];
    assert t[..3] == [if i == 0 then s[1] else s[0], s[2], s[3]];
    SwapKeepsMultiset(t);
  }

  lemma SwapKeepsMultiset<T>(t: seq<T>)
    requires |t| >= 3
    ensures multiset(SwapOneTwo(t)) == multiset(t)
  {
    assert t == [t[0], t[1], t[2]] + t[3..];
    assert multiset([t[0], t[2], t[1]]) == multiset([t[0], t[1], t[2]]);
  }

  /** The overflow list after the cascade of `Insert` stopped at position
      `i` carrying `x` holds the tail of the list with `item` inserted. */
  lemma OverflowInserted<T>(b: seq<T>, index: nat, item: T, xs: seq<T>, i: nat, x: T)
    requires 3 <= |b| && index <= |b| && xs == b[3..]
    requires i == (if index < 3 then 3 else index) && x == (if index < 3 then b[2] else item)
    ensures xs[..i - 3] + [x] + xs[i - 3..] == (b[..index] + [item] + b[index..])[3..]
  {
    InsertedSlots(b, index, item);
    if index < 3 {
      assert xs[..i - 3] + [x] + xs[i - 3..] == [b[2]] + b[3..];
    } else {
      assert xs[..i - 3] == b[3..index] && xs[i - 3..] == b[index..];
    }
  }

  /** An insertion into a list of at least three elements, described slot by
      slot and then as the tail that the overflow list holds. */
  lemma InsertedSlots<T>(b: seq<T>, index: nat, item: T)
    requires 3 <= |b| && index <= |b|
    ensures var t := b[..index] + [item] + b[index..];
      && |t| == |b| + 1
      && t[0] == (if index == 0 then item else b[0])
      && t[1] == (if index == 1 then item else if index == 0 then b[0] else b[1])
      && t[2] == (if index == 2 then item else if index < 2 then b[1] else b[2])
      && t[3..] == (if index < 3 then [b[2]] + b[3..] else b[3..index] + [item] + b[index..])
  {
    var t := b[..index] + [item] + b[index..];
    if index < 3 {
      forall k | 3 <= k < |t|
        ensures t[k] == b[k - 1]
      {
        assert t[k] == b[index..][k - index - 1];
      }
      assert t[3..] == b[2..];
      assert b[2..] == [b[2]] + b[3..];
    } else {
      assert t[3..] == b[3..index] + [item] + b[index..];
    }
  }

  class HotList3<T(==,0)> {
    var Item0: T
    var Item1: T
    var Item2: T
    var Count: nat
    var Extra: Option<seq<T>>

    /** The ordered list this structure represents. */
    ghost var Elements: seq<T>

    ghost predicate Valid()
      reads this
    {
      && |Elements| == Count
      && (Count > 0 ==> Elements[0] == Item0)
      && (Count > 1 ==> Elements[1] == Item1)
      && (Count > 2 ==> Elements[2] == Item2)
      && (Count > 3 ==> Extra.Some?)
      && (Extra.Some? ==> Extra.value == if Count > 3 then Elements[3..] else [])
    }

    /** The default value of the struct: empty, with no overflow list. */
    constructor ()
      ensures Valid() && Elements == [] && Count == 0 && Extra.None?
    {
      Count := 0;
      Extra := None;
      Elements := [];
    }

    /** The indexer's getter. */
    function Get(index: int): (r: Result<T, Exception>)
      reads this
      requires Valid()
      ensures 0 <= index < |Elements| ==> r == Ok(Elements[index])
      ensures index >= |Elements| ==> r == Err(IndexOutOfRange)
      ensures index < 0 ==> r.Err?
    {
      if index >= Count then Err(IndexOutOfRange)
      else if index == 0 then Ok(Item0)
      else if index == 1 then Ok(Item1)
      else if index == 2 then Ok(Item2)
      else if Extra.None? then Err(NullReference)
      else if 0 <= index - 3 < |Extra.value| then Ok(Extra.value[index - 3])
      else Err(ArgumentOutOfRange)
    }

    /** `Set` and the indexer's setter: replaces one position, or throws and
        changes nothing. */
    method Set(index: int, value: T) returns (thrown: Option<Exception>)
      requires Valid()
      modifies this
      ensures Valid() && Count == old(Count)
      ensures 0 <= index < old(Count) ==> thrown.None? && Elements == old(Elements)[index := value]
      ensures index >= old(Count) ==> thrown == Some(IndexOutOfRange)
      ensures thrown.Some? <==> !(0 <= index < old(Count))
      ensures thrown.Some? ==> Elements == old(Elements)
      ensures index >= 3 || thrown.Some? ==> Item0 == old(Item0) && Item1 == old(Item1) && Item2 == old(Item2)
    {
      if index >= Count { return Some(IndexOutOfRange); }
      if index == 0 {
        Item0 := value;
      } else if index == 1 {
        Item1 := value;
      } else if index == 2 {
        Item2 := value;
      } else if Extra.None? {
        return Some(NullReference);
      } else if !(0 <= index - 3 < |Extra.value|) {
        return Some(ArgumentOutOfRange);
      } else {
        Extra := Some(Extra.value[index - 3 := value]);
      }
      Elements := Elements[index := value];
      return None;
    }

    function IndexOf(item: T): (r: int)
      reads this
      requires Valid()
      ensures r == -1 <==> item !in Elements
      ensures r != -1 ==> 0 <= r < |Elements| && Elements[r] == item && item !in Elements[..r]
    {
      if Count < 1 then -1 else if Item0 == item then 0
      else if Count < 2 then -1 else if Item1 == item then 1
      else if Count < 3 then -1 else if Item2 == item then 2
      else if Extra.None? then -1
      else
        var i := ListIndexOf(Extra.value, item);
        if i < 0 then -1 else i + 3
    }

    function Contains(item: T): (r: bool)
      reads this
      requires Valid()
      ensures r <==> item in Elements
    {
      IndexOf(item) >= 0
    }

    /** Appends at the end; the fourth element creates the overflow list. */
    method Add(item: T)
      requires Valid()
      modifies this
      ensures Valid()
      ensures Elements == old(Elements) + [item] && Count == old(Count) + 1
      ensures old(Count) < 3 ==> Extra == old(Extra)
      ensures old(Count) == 3 ==> Extra == Some([item])
      ensures old(Count) >= 3 ==> Item0 == old(Item0) && Item1 == old(Item1) && Item2 == old(Item2)
    {
      var c := Count;
      Count := Count + 1;
      if c == 0 {
        Item0 := item;
      } else if c == 1 {
        Item1 := item;
      } else if c == 2 {
        Item2 := item;
      } else if c == 3 {
        Extra := Some([item]);
      } else {
        Extra := Some(Extra.value + [item]);
      }
      Elements := Elements + [item];
    }

    method Clear()
      requires Valid()
      modifies this
      ensures Valid() && Elements == [] && Count == 0 && Extra.None?
    {
      Extra := None;
      Count := 0;
      Elements := [];
    }

    /** Places `item` at `index` by swapping it down the fixed slots until the
        cascade reaches the overflow list. The cascade always ends in
        `Extra.Insert`, so the overflow list must exist and the fixed slots be
        full. */
    method Insert(index: int, item: T)
      requires Valid() && Extra.Some? && 3 <= Count && 0 <= index <= Count
      modifies this
      ensures Valid() && Count == old(Count) + 1
      ensures Elements == old(Elements)[..index] + [item] + old(Elements)[index..]
    {
      ghost var before := Elements;
      InsertedSlots(before, index, item);
      var i, x := index, item;
      if i == 0 { x, Item0 := Item0, x; i := i + 1; }
      if i == 1 { x, Item1 := Item1, x; i := i + 1; }
      if i == 2 { x, Item2 := Item2, x; i := i + 1; }
      assert x == (if index < 3 then before[2] else item) && i == (if index < 3 then 3 else index);
      if i >= 3 {
        var xs := Extra.value;
        OverflowInserted(before, index, item, xs, i, x);
        Extra := Some(xs[..i - 3] + [x] + xs[i - 3..]);
      }
      Count := Count + 1;
      Elements := before[..index] + [item] + before[index..];
    }

    /** Removes the element at `index` by shifting the fixed slots down and
        then removing from the overflow list. Below index 3 the chain reaches
        `Extra[0]` and `Extra.RemoveAt(0)`, so it needs a non-empty overflow;
        and it writes the pulled element into slot 1, not slot 2. */
    method RemoveAt(index: int)
      requires Valid() && 0 <= index < Count && (index < 3 ==> Count > 3)
      modifies this
      ensures Valid() && Count == old(Count) - 1
      ensures index >= 3 ==> Elements == Removed(old(Elements), index)
      ensures index >= 3 ==> Item0 == old(Item0) && Item1 == old(Item1) && Item2 == old(Item2)
      ensures index < 3 ==> Elements == RemovedBelowThree(old(Elements), index)
    {
      ghost var before := Elements;
      var i := index;
      if i == 0 { Item0 := Item1; i := i + 1; }
      if i == 1 { Item1 := Item2; i := i + 1; }
      if i == 2 && Extra.Some? { Item1 := Extra.value[0]; i := i + 1; }
      var xs := Extra.value;
      Extra := Some(xs[..i - 3] + xs[i - 2..]);
      Count := Count - 1;
      Elements := if index >= 3 then Removed(before, index) else RemovedBelowThree(before, index);
    }

    /** Removes the first occurrence of `item` through `RemoveAt`. When that
        occurrence is in a fixed slot, `RemoveAt` needs the overflow list, so
        a list of at most three elements cannot remove a present item. */
    method Remove(item: T) returns (removed: bool)
      requires Valid() && (Count <= 3 ==> item !in Elements)
      modifies this
      ensures Valid()
      ensures removed <==> item in old(Elements)
      ensures !removed ==> Elements == old(Elements) && Count == old(Count)
      ensures removed ==> Count == old(Count) - 1
      ensures removed && old(IndexOf(item)) >= 3 ==> Elements == Removed(old(Elements), old(IndexOf(item)))
      ensures removed && old(IndexOf(item)) < 3 ==> Elements == RemovedBelowThree(old(Elements), old(IndexOf(item)))
    {
      var index := IndexOf(item);
      if index < 0 { return false; }
      RemoveAt(index);
      return true;
    }
  }

  /** The shift-down chain of `RemoveAt` below index 3 does not remove:
      from `[0, 1, 2, 3]`, removing position 2 leaves `[0, 3, 2]` where the
      ordered list would be `[0, 1, 3]`. */
  lemma RemoveBelowThreeIsNotRemoval()
    ensures RemovedBelowThree([0, 1, 2, 3], 2) == [0, 3, 2]
    ensures Removed([0, 1, 2, 3], 2) == [0, 1, 3]
  {
  }

  /** Below index 3, `RemoveAt` agrees with removal exactly when the first
      overflow element equals the old slot 2 and, for index 2, the old slot 1
      equals them as well. */
  lemma RemoveBelowThreeAgreement<T>(s: seq<T>, i: nat)
    requires i < 3 < |s|
    ensures RemovedBelowThree(s, i) == Removed(s, i) <==>
            s[3] == s[2] && (i == 2 ==> s[1] == s[2])
  {
    var r, q := RemovedBelowThree(s, i), Removed(s, i);
    assert q[..3] == (if i == 2 then [s[0], s[1], s[3]] else [s[if i == 0 then 1 else 0], s[2], s[3]]);
    assert q[3..] == s[4..];
    if s[3] == s[2] && (i == 2 ==> s[1] == s[2]) {
      assert r == r[..3] + r[3..] && q == q[..3] + q[3..];
    } else {
      assert r[1] != q[1] || r[2] != q[2];
    }
  }
}

=== FILE: listener_link.dfy ===
/** The packed (listener index, argument slot) word of `ListenerLink`.

    A link is one 32-bit signed C# `int`. The argument slot lives in the low
    four bits (`ARG_MASK`), the listener index is the word shifted right by
    `SHIFT`. The C# operators are written out on unbounded integers:
    `<<` keeps the low 32 bits, `>>` on `int` is an arithmetic shift (a floor
    division by a power of two, which is Dafny's `/` for a positive divisor),
    `& 0b1111` is the Euclidean remainder by 16 on a two's-complement word,
    `|` is a bitwise or of the two's-complement words and `+` on `int` wraps.

    `SHIFT` is `Math.ILogB(0b1111)`, which is 3, so the lowest bit of the index
    shares bit 3 with the argument. Every operation is therefore stated for an
    arbitrary shift amount (`...At`), and the source's own members (`Pack`,
    `Index`, `Plus`, `Minus`) fix it to `SHIFT`. */
module ListenerLinks {

  const INT_MAX: int := 0x7FFF_FFFF
  const TWO_32: int := 0x1_0000_0000
  const WORD_BITS: nat := 32

  /** A C# `int`. */
  type Int32 = x: int | -0x8000_0000 <= x <= 0x7FFF_FFFF

  /** A shift count that C# applies unmasked. */
  type ShiftCount = s: nat | s < 32

  function Pow2(n: nat): (r: nat)
    ensures r >= 1
  {
    if n == 0 then 1 else 2 * Pow2(n - 1)
  }

  /** The 32-bit two's-complement value with the same low 32 bits as `x`. */
  function Wrap32(x: int): (r: Int32)
    ensures (x - r) % TWO_32 == 0
    ensures -0x8000_0000 <= x <= INT_MAX ==> r == x
  {
    var m := x % TWO_32;
    if m <= INT_MAX then m else m - TWO_32
  }

  /** Bitwise or of the low `n` bits of two naturals. */
  function OrBits(x: nat, y: nat, n: nat): nat
  {
    if n == 0 then 0
    else (if x % 2 == 1 || y % 2 == 1 then 1 else 0) + 2 * OrBits(x / 2, y / 2, n - 1)
  }

  /** The two's-complement bit pattern of an `int`, read as an unsigned number. */
  function Unsigned(x: Int32): nat
  {
    if x >= 0 then x else x + TWO_32
  }

  /** C#'s `x | y` on `int`. */
  function Or(x: Int32, y: Int32): Int32
  {
    Wrap32(OrBits(Unsigned(x), Unsigned(y), WORD_BITS))
  }

  /** C#'s `x << s` on `int`. */
  function ShiftLeft(x: Int32, s: ShiftCount): Int32
  {
    Wrap32(x * Pow2(s))
  }

  /** C#'s `x >> s` on `int`: an arithmetic shift, i.e. division rounding down. */
  function ShiftRight(x: Int32, s: ShiftCount): (r: int)
    ensures Pow2(s) * r <= x < Pow2(s) * r + Pow2(s)
  {
    x / Pow2(s)
  }

  /** `Math.ILogB` on a positive integer: the exponent of its highest set bit. */
  function ILogB(n: nat): (r: nat)
    requires n >= 1
    ensures Pow2(r) <= n < Pow2(r + 1)
    ensures r < n
  {
    if n == 1 then 0 else 1 + ILogB(n / 2)
  }

  const ARG_MASK: int := 0x0F
  const SHIFT: ShiftCount := ILogB(ARG_MASK)

  datatype ListenerLink = ListenerLink(position: Int32)

  /** `Argument`: the low four bits of the packed word. */
  function Argument(l: ListenerLink): (a: int)
    ensures 0 <= a <= ARG_MASK
  {
    l.position % (ARG_MASK + 1)
  }

  /** `Index` for a shift count `s`. */
  function IndexAt(s: ShiftCount, l: ListenerLink): int
  {
    ShiftRight(l.position, s)
  }

  /** `new ListenerLink(index, argument)` for a shift count `s`. */
  function PackAt(s: ShiftCount, index: Int32, argument: Int32): ListenerLink
  {
    ListenerLink(Or(ShiftLeft(index, s), argument))
  }

  /** `ll + offset` for a shift count `s`. */
  function PlusAt(s: ShiftCount, l: ListenerLink, offset: Int32): ListenerLink
  {
    PackAt(s, Wrap32(IndexAt(s, l) + offset), Argument(l))
  }

  /** `ll - offset` for a shift count `s`. */
  function MinusAt(s: ShiftCount, l: ListenerLink, offset: Int32): ListenerLink
  {
    PackAt(s, Wrap32(IndexAt(s, l) - offset), Argument(l))
  }

  function Index(l: ListenerLink): int { IndexAt(SHIFT, l) }
  function Pack(index: Int32, argument: Int32): ListenerLink { PackAt(SHIFT, index, argument) }
  function Plus(l: ListenerLink, offset: Int32): ListenerLink { PlusAt(SHIFT, l, offset) }
  function Minus(l: ListenerLink, offset: Int32): ListenerLink { MinusAt(SHIFT, l, offset) }

  /** `operator ==` and `Equals`: two links are the same link exactly when
      their packed words are equal. */
  function Equal(a: ListenerLink, b: ListenerLink): (r: bool)
    ensures r <==> a == b
  {
    a.position == b.position
  }

  /** `operator !=`. */
  function NotEqual(a: ListenerLink, b: ListenerLink): (r: bool)
    ensures r <==> a != b
  {
    a.position != b.position
  }

  // ----- arithmetic helpers -----

  lemma {:induction false} Pow2Add(a: nat, b: nat)
    ensures Pow2(a + b) == Pow2(a) * Pow2(b)
  {
    if a > 0 { Pow2Add(a - 1, b); }
  }

  lemma Pow2Words()
    ensures Pow2(31) == 0x8000_0000 && Pow2(32) == TWO_32
  {
    assert Pow2(7) == 128;
    assert Pow2(8) == 256;
    Pow2Add(8, 8); Pow2Add(16, 8); Pow2Add(24, 8); Pow2Add(24, 7);
  }

  lemma SmallMultiple(m: int, d: int)
    requires d > 0 && -d < m * d < d
    ensures m == 0
  {
  }

  lemma MulMonotone(a: int, b: int, c: nat)
    requires a <= b
    ensures a * c <= b * c
  {
  }

  lemma MulAssoc(a: int, b: int, c: int)
    ensures a * (c * b) == (a * b) * c
  {
  }

  lemma DivModUnique(q: int, r: int, d: int)
    requires 0 <= r < d
    ensures (q * d + r) / d == q && (q * d + r) % d == r
  {
    var v := q * d + r;
    assert (q - v / d) * d == v % d - r;
    SmallMultiple(q - v / d, d);
  }

  /** Or-ing a value below `Pow2(k)` into a multiple of `Pow2(k)` is addition. */
  lemma {:induction false} OrBitsDisjoint(q: nat, y: nat, k: nat, n: nat)
    requires k <= n && y < Pow2(k) && q * Pow2(k) < Pow2(n)
    ensures OrBits(q * Pow2(k), y, n) == q * Pow2(k) + y
  {
    if n == 0 {
    } else if k == 0 {
      assert q * Pow2(k) == q;
      assert q / 2 * Pow2(0) < Pow2(n - 1);
      OrBitsDisjoint(q / 2, 0, 0, n - 1);
    } else {
      var h := Pow2(k - 1);
      var x := q * Pow2(k);
      assert x == (q * h) * 2;
      DivModUnique(q * h, 0, 2);
      assert q * h < Pow2(n - 1);
      OrBitsDisjoint(q, y / 2, k - 1, n - 1);
    }
  }

  // ----- properties of the packing -----

  lemma ShiftedBelowSign(s: ShiftCount, index: nat, argument: nat)
    requires argument < Pow2(s) && index < Pow2(31 - s)
    ensures index * Pow2(s) + argument < 0x8000_0000
  {
    var p := Pow2(s);
    Pow2Words();
    Pow2Add(31 - s, s);
    MulMonotone(index, Pow2(31 - s) - 1, p);
    assert (Pow2(31 - s) - 1) * p == Pow2(31 - s) * p - p;
  }

  lemma ShiftLeftExact(s: ShiftCount, index: Int32, argument: Int32)
    requires 0 <= argument < Pow2(s) && 0 <= index < Pow2(31 - s)
    ensures 0 <= index * Pow2(s) && index * Pow2(s) + argument <= INT_MAX
    ensures ShiftLeft(index, s) == index * Pow2(s)
  {
    ShiftedBelowSign(s, index, argument);
  }

  lemma OrDisjoint(s: ShiftCount, x: Int32, argument: Int32, q: nat)
    requires x == q * Pow2(s) && 0 <= x && 0 <= argument < Pow2(s) && x + argument <= INT_MAX
    ensures Or(x, argument) == x + argument
  {
    assert OrBits(x, argument, WORD_BITS) == x + argument by {
      Pow2Words();
      assert x < Pow2(WORD_BITS);
      OrBitsDisjoint(q, argument, s, WORD_BITS);
    }
    assert Unsigned(x) == x && Unsigned(argument) == argument;
  }

  lemma PackPosition(s: ShiftCount, index: Int32, argument: Int32)
    requires 0 <= argument < Pow2(s) && 0 <= index < Pow2(31 - s)
    ensures PackAt(s, index, argument).position == index * Pow2(s) + argument
  {
    ShiftLeftExact(s, index, argument);
    OrDisjoint(s, index * Pow2(s), argument, index);
  }

  /** The index reads back whenever the argument fits below the shift and the
      shifted index does not reach the sign bit. */
  lemma PackIndex(s: ShiftCount, index: Int32, argument: Int32)
    requires 0 <= argument < Pow2(s) && 0 <= index < Pow2(31 - s)
    ensures PackAt(s, index, argument).position == index * Pow2(s) + argument
    ensures IndexAt(s, PackAt(s, index, argument)) == index
  {
    PackPosition(s, index, argument);
    DivModUnique(index, argument, Pow2(s));
  }

  /** With the argument field below the index field (`s >= 4`), a link reads
      back both the index and the argument it was packed from. */
  lemma RoundTrip(s: ShiftCount, index: Int32, argument: Int32)
    requires 4 <= s
    requires 0 <= argument <= ARG_MASK && 0 <= index < Pow2(31 - s)
    ensures IndexAt(s, PackAt(s, index, argument)) == index
    ensures Argument(PackAt(s, index, argument)) == argument
  {
    Pow2Add(4, s - 4);
    assert Pow2(4) == 16;
    PackIndex(s, index, argument);
    var q := Pow2(s - 4);
    var m := index * q;
    assert Pow2(s) == 16 * q;
    MulAssoc(index, q, 16);
    DivModUnique(m, argument, 16);
  }

  /** Packing is injective on the links that read back. */
  lemma PackInjective(s: ShiftCount, i: Int32, a: Int32, j: Int32, b: Int32)
    requires 4 <= s
    requires 0 <= a <= ARG_MASK && 0 <= i < Pow2(31 - s)
    requires 0 <= b <= ARG_MASK && 0 <= j < Pow2(31 - s)
    ensures PackAt(s, i, a) == PackAt(s, j, b) <==> i == j && a == b
  {
    RoundTrip(s, i, a);
    RoundTrip(s, j, b);
  }

  lemma {:induction false} Pow2Monotone(a: nat, b: nat)
    requires a <= b
    ensures Pow2(a) <= Pow2(b)
  {
    if a < b { Pow2Monotone(a, b - 1); }
  }

  /** Rebasing by an offset moves the index and keeps the argument, and
      subtracting the offset again restores the link. */
  lemma PlusMinus(s: ShiftCount, index: Int32, argument: Int32, offset: Int32)
    requires 4 <= s
    requires 0 <= argument <= ARG_MASK && 0 <= index < Pow2(31 - s)
    requires 0 <= index + offset < Pow2(31 - s)
    ensures IndexAt(s, PlusAt(s, PackAt(s, index, argument), offset)) == index + offset
    ensures Argument(PlusAt(s, PackAt(s, index, argument), offset)) == argument
    ensures MinusAt(s, PlusAt(s, PackAt(s, index, argument), offset), offset) == PackAt(s, index, argument)
  {
    Pow2Monotone(31 - s, 31);
    Pow2Words();
    var l := PackAt(s, index, argument);
    RoundTrip(s, index, argument);
    var moved := index + offset;
    assert Wrap32(IndexAt(s, l) + offset) == moved;
    assert PlusAt(s, l, offset) == PackAt(s, moved, argument);
    RoundTrip(s, moved, argument);
    assert Wrap32(moved - offset) == index;
  }

  /** `SHIFT` is 3: one less than the width of `ARG_MASK`. */
  lemma ShiftIsThree()
    ensures SHIFT == 3
  {
  }

  /** With the source's `SHIFT`, the index's lowest bit and the argument's bit 3
      are the same bit: `(1, 0)` and `(0, 8)` pack to the same word, which reads
      back as argument 8 and index 1. */
  lemma SourceShiftOverlaps()
    ensures Pack(1, 0) == Pack(0, 8) == ListenerLink(8)
    ensures Argument(Pack(1, 0)) == 8
    ensures Index(Pack(0, 8)) == 1
  {
    PackOneZero();
    PackZeroEight();
    ShiftIsThree();
    assert Pow2(3) == 8;
  }

  lemma PackOneZero()
    ensures Pack(1, 0) == ListenerLink(8)
  {
    ShiftIsThree();
    assert Pow2(3) == 8 && Pow2(28) == Pow2(31 - 3);
    PackPosition(3, 1, 0);
  }

  lemma PackZeroEight()
    ensures Pack(0, 8) == ListenerLink(8)
  {
    ShiftIsThree();
    assert Pow2(4) == 16;
    assert ShiftLeft(0, 3) == 0;
    OrDisjoint(4, 0, 8, 0);
  }
}

=== FILE: wrappers.dfy ===
/** Plain wrapper datatypes shared by the other modules: `Option` stands for
    a C# reference that may be null, `Result` for a call that either returns a
    value or throws. */
module Wrappers {

  datatype Option<+T> = None | Some(value: T)

  datatype Result<+T, +E> = Ok(value: T) | Err(error: E)
}
